=== FILE: README.md ===
# Strided slice view — a Dafny model

This project models `Slice<T, extent, stride>` from `task0/Slice.hpp`. It is a
non-owning, one-dimensional view over contiguous memory, made of three layers:

- the **extent/stride descriptor** (`SliceDynamicData` / `SliceBase`). Each of the
  two template arguments is a compile-time constant or a "dynamic" sentinel
  (`std::dynamic_extent` = 2^64 - 1, `dynamic_stride` = -1). Only the dynamic ones
  are stored at run time. Module `SliceDescriptor`: a `Shape` holds the template
  arguments, and a `Descriptor` holds two `Option` fields that are present exactly
  when the matching parameter is dynamic.
- the **view** (`Slice`): a base address plus a descriptor. It covers indexing,
  `Size`, `Stride`, `==`/`!=`, the container, iterator-triple and converting
  constructors, and the sub-view family `First`, `Last`, `DropFirst`, `DropLast`
  and `Skip`. Each sub-view comes in both its runtime-argument form and its
  compile-time-argument form. Module `Slices`.
- the **iterator** (`SliceIterator`): a cursor `(ptr, offset)` that steps by
  +stride forward and -stride in reverse. `begin`, `end`, `rbegin` and `rend` are
  particular offsets. Module `SliceIterators`.

Addresses are unbounded integers. To talk about element values, a view is read
against a buffer `seq<T>` indexed by address (module `SliceContents`). Every
operation is a pure function that returns a fresh value. The builder chains of
the C++ (`Slice().SetData(..).SetExtent(..).SetStrideIfDynamic(..)`) are written
as the same chain of descriptor functions.

Supporting modules:
- `Arith`: ceiling division and the facts about it that the extent formulas need.
- `FixedWidth`: the `size_t` and `int32_t` conversions.
- `Wrappers`: `Option`.
- `AsWritten`: the source's formulas as written, where they differ from the
  intended behaviour (see Findings).

## Model

| member | source | states |
|---|---|---|
| SliceDescriptor.Make | task0/Slice.hpp:23-59 | The descriptor constructor stores an argument only for a dynamic parameter. A static parameter ignores its argument and reads back as its compile-time value. |
| SliceDescriptor.GetExtent | task0/Slice.hpp:84-90 | The extent is the template argument when static, and the stored field when dynamic. |
| SliceDescriptor.GetStride | task0/Slice.hpp:92-98 | The stride is the template argument when static, and the stored field when dynamic. |
| SliceDescriptor.SetExtent | task0/Slice.hpp:60-63 | Only callable on a dynamic extent. Afterwards the extent reads back as the new value, and the stride and shape are unchanged. |
| SliceDescriptor.SetStride | task0/Slice.hpp:65-68 | Only callable on a dynamic stride. Afterwards the stride reads back as the new value, and the extent and shape are unchanged. |
| SliceDescriptor.SetExtentIfDynamic | task0/Slice.hpp:70-75 | A dynamic extent takes the new value. A static extent leaves the descriptor identical. The stride is never touched. |
| SliceDescriptor.SetStrideIfDynamic | task0/Slice.hpp:77-82 | A dynamic stride takes the new value. A static stride leaves the descriptor identical. The extent is never touched. |
| SliceDescriptor.AccessorsDetermineDescriptor | task0/Slice.hpp:23-52 | Two valid descriptors of one shape are equal if and only if their two accessors agree. No state hides behind `GetExtent` and `GetStride`. |
| SliceDescriptor.MakeFromAccessors | task0/Slice.hpp:23-59 | Every valid descriptor is what the constructor builds from its own accessor values. |
| Slices.Size | task0/Slice.hpp:345-350 | `Size()` of a view with a static extent is that compile-time extent. With a dynamic extent it is the stored extent field. |
| Slices.Stride | task0/Slice.hpp:341-343 | `Stride()` of a view with a static stride is that compile-time stride. With a dynamic stride it is the stored stride field. |
| Slices.At | task0/Slice.hpp:302-307 | Element 0 is at the base address. With a non-zero stride, the index can be recovered from the element's address. |
| Slices.Blank | task0/Slice.hpp:480-481 | The default constructor gives a well-formed descriptor of the requested type whose static parameters read back as their compile-time values. It promises nothing about the dynamic fields. |
| Slices.Equal | task0/Slice.hpp:352-356 | `==` holds exactly when base, extent and stride agree. Equal views have the same extent and the same address at every index. |
| Slices.NotEqual | task0/Slice.hpp:358-360 | `!=` holds exactly when the two views of one type are different values. |
| Slices.IndexingIsAffine | task0/Slice.hpp:302-307 | Element 0 is at the base, and consecutive elements are exactly one stride apart. |
| Slices.EqualIsIdentity | task0/Slice.hpp:352-356 | For views of one type, `==` (same extent, stride and base) holds exactly when the two views are the same value. |
| Slices.FromContainer | task0/Slice.hpp:314-319 | The base is the container's data. Every element address lies inside the container. A dynamic extent reaches every stride-th element of the container. |
| Slices.FromIterator | task0/Slice.hpp:321-326 | The base is the iterator's address. The extent is `count` unless the extent is static. The stride is the static stride. |
| Slices.FromIteratorIgnoresSkip | task0/Slice.hpp:321-326 | The `skip` argument of the triple constructor does not affect the view. |
| Slices.ConvertibleIsPreorder | task0/Slice.hpp:328-332 | The converting constructor's constraint (each target parameter dynamic or equal) is reflexive and transitive. Every type converts to the fully dynamic type. |
| Slices.Convert | task0/Slice.hpp:328-337 | Converting to a compatible shape keeps base, extent and stride. |
| Slices.First | task0/Slice.hpp:362-368 | `First(n)` has extent n and the same base and stride, and `First(n)[i] == s[i]` for every i < n. |
| Slices.Last | task0/Slice.hpp:378-384 | `Last(n)` has extent n and the same stride. Its base is the address of s[E-n], and `Last(n)[i] == s[E-n+i]` for every i < n. |
| Slices.DropFirst | task0/Slice.hpp:394-400 | `DropFirst(n)` has extent E-n and the same stride. Its base is the address of s[n], and `DropFirst(n)[i] == s[n+i]` for every i < E-n. |
| Slices.DropLast | task0/Slice.hpp:419-425 | `DropLast(n)` has extent E-n and the same base and stride, and `DropLast(n)[i] == s[i]` for every i < E-n. |
| Slices.Skip | task0/Slice.hpp:444-450 | `Skip(k)` keeps the base, and its stride is S*k. Every index i of the result has i*k < E and `Skip(k)[i] == s[i*k]`. Every multiple of k below E is reached. |
| Slices.FirstStatic | task0/Slice.hpp:370-376 | `First<n>()` has static extent n and shows the same view as `First(n)`. |
| Slices.LastStatic | task0/Slice.hpp:386-392 | `Last<n>()` has static extent n and shows the same view as `Last(n)`. |
| Slices.DropFirstStatic | task0/Slice.hpp:402-417 | `DropFirst<n>()` has result extent E-n and shows the same view as `DropFirst(n)`. On a static extent this is the overload at 402-408. On a dynamic extent only n = 0 instantiates the overload at 410-417, and the result is `DropFirst(0)` itself. |
| Slices.DropLastStatic | task0/Slice.hpp:427-442 | `DropLast<n>()` keeps the extent static or dynamic as it was, and shows the same view as `DropLast(n)`. |
| Slices.SkipStatic | task0/Slice.hpp:452-474 | `Skip<k>()` keeps each parameter static or dynamic as it was, and shows the same view as `Skip(k)`. |
| Slices.ScaledStaticStride | task0/Slice.hpp:452-460 | A static stride times a positive k is never the dynamic sentinel, so `Skip<k>()` yields a well-formed static stride. |
| Slices.DropFirstIsLast | task0/Slice.hpp:378-400 | `DropFirst(n)` is the same value as `Last(E-n)`. |
| Slices.DropLastIsFirst | task0/Slice.hpp:419-425 | `DropLast(n)` is the same value as `First(E-n)`. |
| Slices.DropNothing | task0/Slice.hpp:394-425 | `First(n).DropFirst(0)` equals `First(n)`. `DropFirst(0).DropLast(0)` shows the original view, and is the original value when its extent is dynamic. |
| Slices.SkipSkip | task0/Slice.hpp:444-450 | `Skip(a).Skip(b)` equals `Skip(a*b)`: stride S*a*b, base unchanged, extent ceil(ceil(E/a)/b) = ceil(E/(a*b)). |
| SliceContents.FitsFromEndpoints | task0/Slice.hpp:302-307 | A non-empty view whose first and last element addresses are in the buffer has all its addresses in the buffer. |
| SliceContents.FirstElements | task0/Slice.hpp:362-368 | `First(n)` shows exactly the first n values of the view. |
| SliceContents.LastElements | task0/Slice.hpp:378-384 | `Last(n)` shows exactly the last n values of the view. |
| SliceContents.DropFirstElements | task0/Slice.hpp:394-400 | `DropFirst(n)` shows exactly the values after the first n. |
| SliceContents.DropLastElements | task0/Slice.hpp:419-425 | `DropLast(n)` shows exactly the values before the last n. |
| SliceContents.SkipElements | task0/Slice.hpp:444-450 | `Skip(k)` shows ceil(E/k) values, and value i is the view's value i*k. |
| SliceContents.DemoScenario | task0/Slice.hpp:503-519 | Over 0..99, `Slice<int, 15, 2>` shows 0, 2, …, 28. Its `First<5>().Skip<2>()` shows 0, 4, 8 with stride 4. |
| SliceIterators.Deref | task0/Slice.hpp:173-178 | `*it` and `it->` designate element i of a view when the cursor is over that view at offset i strides. |
| SliceIterators.Next | task0/Slice.hpp:179-182 | `++it` moves the designated address by +stride for a forward cursor and by -stride for a reverse one. |
| SliceIterators.Prev | task0/Slice.hpp:183-186 | `--it` is the step that `++` undoes. |
| SliceIterators.PostNext | task0/Slice.hpp:187-191 | `it++` returns the old cursor, and the moved cursor is one `--` away from it. |
| SliceIterators.PostPrev | task0/Slice.hpp:192-196 | `it--` returns the old cursor, and the moved cursor is one `++` away from it. |
| SliceIterators.Advance | task0/Slice.hpp:197-200 | `it += n` keeps the view and direction. `+= 0` does not move, `+= 1` is `++it` and `+= -1` is `--it`. For every other count, `AdvanceIsRepeatedNext` and `AdvanceBackIsRepeatedPrev` fix the result. |
| SliceIterators.Retreat | task0/Slice.hpp:213-215 | `it -= n` is undone by `+= n`. |
| SliceIterators.Subscript | task0/Slice.hpp:216-221 | `it[n]` is the address that `it += n` designates. |
| SliceIterators.IterEqual | task0/Slice.hpp:222-224 | Cursors over one base are equal exactly when they designate the same address. |
| SliceIterators.IterNotEqual | task0/Slice.hpp:225-227 | Cursors over one base differ exactly when they designate different addresses. |
| SliceIterators.Distance | task0/Slice.hpp:243-245 | The intended `a - b`: when a lies a whole number of steps from b, advancing b by the distance reaches a. |
| SliceIterators.Before | task0/Slice.hpp:228-239 | The intended `a < b`: if it holds, b lies ahead of a in the iteration direction. Conversely, a cursor a whole number of steps ahead makes it hold. |
| SliceIterators.Begin | task0/Slice.hpp:263-265 | `begin()` is a forward cursor over the view that designates element 0. |
| SliceIterators.End | task0/Slice.hpp:267-269 | `end()` is a forward cursor over the view at the address of element E. One `--` from it designates the last element. |
| SliceIterators.RBegin | task0/Slice.hpp:279-281 | `rbegin()` is a reverse cursor that designates the last element. For an empty view it is `rend()`. |
| SliceIterators.REnd | task0/Slice.hpp:283-285 | `rend()` is a reverse cursor one step beyond element 0. One `--` from it designates element 0. |
| SliceIterators.NextPrevInverse | task0/Slice.hpp:179-186 | Increment and decrement are inverse to each other. |
| SliceIterators.AdvanceIsRepeatedNext | task0/Slice.hpp:197-200 | `it += n` equals n successive `++it`, in either direction. |
| SliceIterators.AdvanceBackIsRepeatedPrev | task0/Slice.hpp:197-200 | `it += -n` equals n successive `--it`, in either direction, so a negative count steps back. |
| SliceIterators.SubscriptIsAdvancedDeref | task0/Slice.hpp:216-221 | `it[n]` designates the address n increments would reach, and `it[-n]` the address n decrements would reach. |
| SliceIterators.ForwardPositions | task0/Slice.hpp:263-269 | After i increments from `begin()` the cursor designates element i. After E increments it equals `end()`, and with a non-zero stride no earlier cursor equals `end()`. |
| SliceIterators.ReversePositions | task0/Slice.hpp:279-285 | After i increments from `rbegin()` the cursor designates element E-1-i. After E increments it equals `rend()`, and with a non-zero stride no earlier cursor equals `rend()`. |
| SliceIterators.EmptyRanges | task0/Slice.hpp:263-293 | For an empty view, `begin() == end()` and `rbegin() == rend()`. |
| SliceIterators.OffsetsFitFixedWidth | task0/Slice.hpp:267-285 | The `size_t` products stored in an `int32_t` offset equal the integer offsets whenever those fit. This includes `rbegin()` of an empty view, which wraps to exactly `rend()`. |
| SliceIterators.DistanceOfAdvance | task0/Slice.hpp:243-245 | The step count from a cursor to the cursor n steps on is n. |
| SliceIterators.BeforeIffAhead | task0/Slice.hpp:228-239 | A cursor is before the cursor n steps on exactly when n > 0, in either direction. |
| SliceIterators.RangeLengths | task0/Slice.hpp:263-285 | Both `[begin, end)` and `[rbegin, rend)` are E steps long. |
| SliceIterators.ForwardTraversal | task0/Slice.hpp:263-277 | A loop from `begin()` until `end()` collects exactly s[0], …, s[E-1] in order. |
| SliceIterators.ReverseTraversal | task0/Slice.hpp:279-293 | A loop from `rbegin()` until `rend()` collects exactly s[E-1], …, s[0]. |
| SliceIterators.ReverseScenario | task0/Slice.hpp:279-293 | Reverse traversal of 10, 20, 30, 40 with stride 1 shows 40, 30, 20, 10. |
| AsWritten.PredecessorCeil | task0/Slice.hpp:448 | The code's extent formula `(n - 1) / k + 1` in `size_t`, also used at line 317. Its result fits in `size_t`, and for an empty range with k ≥ 2 it is (2^64 - 1) / k + 1 rather than 0. |
| AsWritten.PredecessorCeilWhenNonEmpty | task0/Slice.hpp:448 | For 1 ≤ n < 2^64, the source's `(n - 1) / k + 1` in `size_t` is the ceiling of n/k. |
| AsWritten.SkipOfEmptyView | task0/Slice.hpp:444-450 | As written, `Skip(2)` of an empty view has extent 2^63. The corrected `Skip` keeps it empty. |
| AsWritten.ContainerOfEmptyBuffer | task0/Slice.hpp:314-319 | As written, an empty container with stride 2 gives extent 2^63. The corrected constructor gives 0. |
| AsWritten.PlusAsWritten | task0/Slice.hpp:201-203 | The code's `it + n`: a forward cursor advances n steps, but a reverse cursor retreats n steps (`ReversePlusStepsBack` gives the input). |
| AsWritten.ReversePlusStepsBack | task0/Slice.hpp:201-203 | As written, `it + 1` on a reverse cursor equals `--it` and differs from `++it`. |
| AsWritten.DifferenceAsWritten | task0/Slice.hpp:243-245 | The code's `a - b`: for cursors over one base, the distance between the designated addresses in buffer elements, not in steps. |
| AsWritten.DifferenceCountsBufferElements | task0/Slice.hpp:243-245 | As written, `end() - begin()` is stride × extent. For a non-empty view with any stride other than 0 and 1, that differs from the element count. |
| AsWritten.LessAsWritten | task0/Slice.hpp:228-230 | The code's `a < b`: for cursors over one base, the order of the designated addresses, whatever the iteration direction. |
| AsWritten.ReverseOrderInverted | task0/Slice.hpp:228-239 | As written, `rbegin() < rend()` is false for a non-empty view with positive stride, though `rbegin()` comes first. |

## Findings

| source | as written | input that shows it | evidently intended | confidence | as-written member | corrected member |
|---|---|---|---|---|---|---|
| task0/Slice.hpp:448 | extent `(GetExtent() - 1) / skip + 1` in `size_t` (the same formula appears at lines 453, 464 and 472) | an empty view, `Skip(2)`: extent 2^63 | ceil(E/k), i.e. 0 for an empty view | medium, not executed | AsWritten.SkipOfEmptyView | Slices.Skip |
| task0/Slice.hpp:317 | extent `(container.size() - 1) / stride + 1` in `size_t` | an empty container with stride 2: extent 2^63 | ceil(size/stride), i.e. 0 | medium, not executed | AsWritten.ContainerOfEmptyBuffer | Slices.FromContainer |
| task0/Slice.hpp:201-203 | `it + n` passes `-n` to `+=` for a reverse cursor, and `+=` already negates the stride | a reverse cursor, `it + 1`: it moves to the previous element | n steps in the iteration direction, like `it += n` | high, not executed | AsWritten.PlusAsWritten | task0/Slice.hpp:201-203 | The code's `it + n`: a forward cursor advances n steps, but a reverse cursor retreats n steps (`ReversePlusStepsBack` gives the input). |
| AsWritten.ReversePlusStepsBack | SliceIterators.AdvanceIsRepeatedNext |
| task0/Slice.hpp:243-245 | `a - b` returns the raw offset difference | stride 2, extent 3: `end() - begin()` is 6 | the step count (3), as a random-access iterator requires | medium, not executed | AsWritten.DifferenceCountsBufferElements | SliceIterators.DistanceOfAdvance |
| task0/Slice.hpp:228-239 | `<`, `>`, `<=`, `>=` compare raw offsets whatever the direction | stride 1, extent 1: `rbegin() < rend()` is false | order in iteration direction: `rbegin() < rend()` | medium, not executed | AsWritten.ReverseOrderInverted | SliceIterators.BeforeIffAhead |

## Left out

- Fixed-width arithmetic: offsets, extents and strides are unbounded integers. The `size_t`, `ptrdiff_t` and `int32_t` overflows and the truncating `static_cast<int32_t>` of the stride are not modelled. The exceptions are `SliceIterators.OffsetsFitFixedWidth` and the `AsWritten` formulas, which model the wrap-around explicitly.
- Slices.FromContainer: requires a static stride of at least 1. A stride of 0 divides by zero. A negative stride is converted to a huge `size_t`, which makes the extent 1, or 2 for an empty container with stride -2; no view over the container is meant by that.
- Slices.Skip and Slices.SkipStatic: require k ≥ 1. `Skip(0)` divides by zero, and a negative k is converted to `size_t`.
- Slices.SkipStatic: the overload for a dynamic extent and dynamic stride (lines 467-474) declares its result type with static stride `stride * skip`, i.e. `-skip`. That only compiles for k = 1, so the model gives the result the intended dynamic/dynamic shape. No overload exists for a static extent with a dynamic stride, so the model's requires excludes that case.
- Slices.DropFirstStatic: the overload at lines 410-417 is the one chosen for a dynamic extent, and it compiles only for `count` = 0. For any other count, its body builds the static-extent type `extent - count` and calls `SetExtent` on it. `DropFirstStatic` therefore requires `count` = 0 on a dynamic extent, where it is `DropFirst(s, 0)`.
- Slices.Convert: the converting constructor (lines 333-337) does not compile for any instantiation. Its initializer list omits the base class `SliceBase`, whose only constructor (lines 58-59) takes two arguments. It also reads `other.data_`, a private member (line 477) of a different `Slice` specialisation. `Convert` models the evident intent: copy the base address, then fill in whichever of extent and stride are dynamic.
- SliceDescriptor.SetExtentIfDynamic: line 71 uses a plain `if`, not `if constexpr`, so instantiating it for a static extent does not compile; this affects the converting constructor into a static-extent type. The model gives it the intended no-op.
- Uninitialised reads: the default `Slice()` constructor (480-481) and the private iterator constructor (251-255) read their own unset descriptor. The model treats the slice's dynamic fields as overwritten by the builder chain (`Blank`), and treats an iterator's descriptor as copied from its view. The iterator default constructor (161) is not modelled.
- The iterator copy-assignment (168-172) does not copy the stride. The model has value semantics, so every copy copies the whole cursor.
- The defective iterator operators are not modelled as written:
  - `n + it` applies `-=` (204-206);
  - `it - n` applies `+=` (207-209);
  - `n - it` (210-212);
  - `it + it` (240-242), which has no meaning.
  
  Their intended meaning is `Advance(it, n)` and `Retreat(it, n)`.
- `operator-=` (213-215) has no `return`. `Retreat` models its offset update only.
- Constness (`iterator` and `const_iterator`, `cbegin`/`cend`, which are `Begin`/`End`), `iterator_category` and the typedefs, the `BasicContainer` and `contiguous_iterator` concepts, `std::to_address`, and `Data`/`GetData`/`SetData`: the model reads and writes the base address directly.
- The bare `static_assert();` (line 493) and the commented-out demo `main` with its printing (497-523). Only the demo's expected contents are stated, in `SliceContents.DemoScenario`.
- Memory validity and lifetime of the buffer: in the model, a buffer is a `seq<T>`, and reads need `Fits`.

=== FILE: arith.dfy ===
/** Integer facts used by the extent formulas of a slice. */
module Arith {

  /** The fewest k-wide steps that cover n elements, i.e. the ceiling of n / k. */
  function CeilDiv(n: nat, k: int): (c: nat)
    requires k >= 1
    ensures c * k >= n
    ensures c == 0 || (c - 1) * k < n
    ensures n == 0 <==> c == 0
  {
    var c := (n + k - 1) / k;
    DivBounds(n + k - 1, k);
    c
  }

  /** Euclidean division written out: q * k <= m < q * k + k. */
  lemma DivBounds(m: nat, k: int)
    requires k >= 1
    ensures (m / k) * k <= m < (m / k) * k + k
  {
  }

  /** `CeilDiv(n, k)` is the only count c with (c - 1) * k < n <= c * k. */
  lemma {:induction false} CeilDivUnique(n: nat, k: int, c: nat)
    requires k >= 1
    requires c * k >= n
    requires c == 0 || (c - 1) * k < n
    ensures c == CeilDiv(n, k)
  {
    var d := CeilDiv(n, k);
    if c < d {
      MulMonotone(c, d - 1, k);
      assert false;
    } else if c > d {
      MulMonotone(d, c - 1, k);
      assert false;
    }
  }

  /** For a non-empty range, the ceiling is the predecessor formula `(n - 1) / k + 1`. */
  lemma CeilDivOfPositive(n: nat, k: int)
    requires n >= 1 && k >= 1
    ensures CeilDiv(n, k) == (n - 1) / k + 1
  {
    var c := (n - 1) / k + 1;
    DivBounds(n - 1, k);
    assert (c - 1) * k <= n - 1;
    assert c * k == (c - 1) * k + k;
    CeilDivUnique(n, k, c);
  }

  /** Decimating by a and then by b covers the same count as decimating by a * b. */
  lemma {:induction false} CeilDivCompose(n: nat, a: int, b: int)
    requires a >= 1 && b >= 1
    ensures a * b >= 1
    ensures CeilDiv(CeilDiv(n, a), b) == CeilDiv(n, a * b)
  {
    MulPositive(a, b);
    var x := CeilDiv(n, a);
    var y := CeilDiv(x, b);
    var ab := a * b;
    assert x * a >= n && y * b >= x;
    MulMonotone(x, y * b, a);
    assert y * b * a == y * ab;
    assert y * ab >= n;
    if y != 0 {
      NestedCountBelow(n, a, b, x, y);
    }
    CeilDivUnique(n, ab, y);
  }

  /** One step fewer than the nested count stays short of n. */
  lemma NestedCountBelow(n: nat, a: int, b: int, x: nat, y: nat)
    requires a >= 1 && b >= 1 && y >= 1
    requires x >= 1 && (x - 1) * a < n
    requires (y - 1) * b < x
    ensures (y - 1) * (a * b) < n
  {
    assert (y - 1) * b <= x - 1;
    MulMonotone((y - 1) * b, x - 1, a);
    assert (y - 1) * b * a == (y - 1) * (a * b);
  }

  /** Multiplying by a non-negative factor keeps the order. */
  lemma MulMonotone(x: int, y: int, k: int)
    requires x <= y && k >= 0
    ensures x * k <= y * k
  {
    assert y * k - x * k == (y - x) * k;
  }

  lemma MulPositive(a: int, b: int)
    requires a >= 1 && b >= 1
    ensures a * b >= 1
  {
    MulMonotone(1, a, b);
  }

  /** A non-zero factor can be cancelled. */
  lemma MulCancel(a: int, x: int, y: int)
    requires a != 0 && a * x == a * y
    ensures x == y
  {
    assert a * (x - y) == 0;
    if x != y {
      MulNonZero(a, x - y);
    }
  }

  lemma MulNonZero(a: int, b: int)
    requires a != 0 && b != 0
    ensures a * b != 0
  {
    if a > 0 && b > 0 {
      MulPositive(a, b);
    } else if a > 0 {
      MulPositive(a, -b);
      assert a * b == -(a * -b);
    } else if b > 0 {
      MulPositive(-a, b);
      assert a * b == -(-a * b);
    } else {
      MulPositive(-a, -b);
      assert a * b == -a * -b;
    }
  }

  /** The sign of a Euclidean quotient: a positive quotient means x and d share a
      sign, and an exact quotient of same-signed values is positive. */
  lemma QuotientSign(x: int, d: int)
    requires d != 0
    ensures x / d > 0 ==> d * x > 0
    ensures x % d == 0 && d * x > 0 ==> x / d > 0
  {
    var q, m := x / d, x % d;
    assert x == d * q + m;
    if q > 0 {
      if d > 0 {
        MulMonotone(1, q, d);
      } else {
        MulMonotone(1, q, -d);
      }
    }
    if m == 0 && d * x > 0 && q <= 0 {
      if q == 0 {
      } else if d > 0 {
        MulMonotone(1, -q, d);
      } else {
        MulMonotone(1, -q, -d);
      }
    }
  }

  /** Exact division undoes multiplication by a non-zero divisor (also for a negative one). */
  lemma DivOfMultiple(n: int, d: int)
    requires d != 0
    ensures (n * d) / d == n
  {
    var q := (n * d) / d;
    var r := (n * d) % d;
    assert d * (n - q) == r;
    if n - q >= 1 {
      MulMonotone(1, n - q, if d > 0 then d else -d);
    } else if n - q <= -1 {
      MulMonotone(1, q - n, if d > 0 then d else -d);
    }
  }
}

=== FILE: as_written.dfy ===
/** Formulas of Slice.hpp as the code computes them, where they differ from what the
    rest of this model (the evidently intended behaviour) computes. Each one comes
    with an input that shows the difference. */
module AsWritten {
  import opened Arith
  import opened FixedWidth
  import opened SliceDescriptor
  import opened Slices
  import opened SliceIterators

  /** `(n - 1) / k + 1` evaluated in `size_t`, as both the container constructor and
      `Skip` write the extent. For n = 0 the subtraction wraps to 2^64 - 1, so for
      k >= 2 an empty range is given (2^64 - 1) / k + 1 elements. */
  function PredecessorCeil(n: nat, k: int): (r: nat)
    requires k >= 1
    ensures r < SizeModulus
    ensures n == 0 && k >= 2 ==> r == (SizeModulus - 1) / k + 1
  {
    ToSize(ToSize(n - 1) / k + 1)
  }

  /** For a non-empty count that fits in `size_t` the formula is the ceiling. */
  lemma PredecessorCeilWhenNonEmpty(n: nat, k: int)
    requires 1 <= n < SizeModulus && k >= 1
    ensures PredecessorCeil(n, k) == CeilDiv(n, k)
  {
    CeilDivOfPositive(n, k);
    DivBounds(n - 1, k);
    MulMonotone(1, k, (n - 1) / k);
  }

  /** `Skip(2)` on an empty view: the code's extent is 2^63, so the decimated view
      claims elements that do not exist; `Slices.Skip` keeps it empty. */
  lemma SkipOfEmptyView(s: Slice)
    requires s.Valid() && Size(s) == 0
    ensures PredecessorCeil(Size(s), 2) == 0x8000_0000_0000_0000
    ensures Size(Skip(s, 2)) == 0
  {
  }

  /** The container constructor on an empty container with stride 2: the code's
      extent is 2^63; `Slices.FromContainer` gives 0. */
  lemma ContainerOfEmptyBuffer(address: int)
    ensures PredecessorCeil(0, 2) == 0x8000_0000_0000_0000
    ensures Size(FromContainer(Shape(DynamicExtent, 2), address, 0)) == 0
  {
  }

  /** `it + n` as written: it passes `-n` to `+=` for a reverse cursor, though `+=`
      already steps against the buffer for one. */
  function PlusAsWritten(it: Iter, n: int): (r: Iter)
    requires it.Valid()
    ensures !it.reversed ==> r == Advance(it, n)
    ensures it.reversed ==> r == Retreat(it, n)
  {
    Advance(it, if it.reversed then -n else n)
  }

  /** On a reverse cursor, the code's `it + 1` is `--it`, not `++it`. */
  lemma ReversePlusStepsBack(it: Iter)
    requires it.Valid() && it.reversed && Step(it) != 0
    ensures PlusAsWritten(it, 1) == Prev(it)
    ensures PlusAsWritten(it, 1) != Next(it)
  {
  }

  /** `a - b` as written: the difference of raw offsets, in buffer elements. For
      cursors over one base it is the distance between the designated addresses. */
  function DifferenceAsWritten(a: Iter, b: Iter): (r: int)
    ensures a.ptr == b.ptr ==> r == Deref(a) - Deref(b)
  {
    a.offset - b.offset
  }

  /** For a non-empty view with a stride other than 0 and 1, the code's
      `end() - begin()` is not the number of elements (stride 2, extent 3 gives 6). */
  lemma DifferenceCountsBufferElements(s: Slice)
    requires s.Valid() && Size(s) >= 1 && Stride(s) != 0 && Stride(s) != 1
    ensures DifferenceAsWritten(End(s), Begin(s)) == Stride(s) * Size(s)
    ensures SameRange(End(s), Begin(s))
    ensures DifferenceAsWritten(End(s), Begin(s)) != Distance(End(s), Begin(s))
  {
    RangeLengths(s);
    if Stride(s) * Size(s) == Size(s) {
      assert Size(s) * Stride(s) == Size(s) * 1;
      MulCancel(Size(s), Stride(s), 1);
    }
  }

  /** `a < b` as written: raw offset order, whatever the direction. For cursors over
      one base it is the order of the designated addresses. */
  function LessAsWritten(a: Iter, b: Iter): (r: bool)
    ensures a.ptr == b.ptr ==> (r <==> Deref(a) < Deref(b))
  {
    a.offset < b.offset
  }

  /** For a reverse range with positive stride the code orders `rbegin()` after
      `rend()`, although `rbegin()` is the first cursor of the range. */
  lemma ReverseOrderInverted(s: Slice)
    requires s.Valid() && Size(s) >= 1 && Stride(s) > 0
    ensures SameRange(RBegin(s), REnd(s))
    ensures Before(RBegin(s), REnd(s))
    ensures !LessAsWritten(RBegin(s), REnd(s))
  {
    ReversePositions(s, 0);
    AdvanceIsRepeatedNext(RBegin(s), Size(s));
    BeforeIffAhead(RBegin(s), Size(s));
    MulMonotone(0, Size(s) - 1, Stride(s));
  }
}

=== FILE: contents.dfy ===
/** The values a view shows when its addresses index a buffer `seq<T>`. */
module SliceContents {
  import opened Arith
  import opened SliceDescriptor
  import opened Slices

  /** Every element address of s is a valid index into a buffer of length `len`. */
  predicate Fits(s: Slice, len: nat)
    requires s.Valid()
  {
    forall i :: 0 <= i < Size(s) ==> 0 <= At(s, i) < len
  }

  /** The elements of s in index order. */
  function Elements<T>(buf: seq<T>, s: Slice): (r: seq<T>)
    requires s.Valid() && Fits(s, |buf|)
    ensures |r| == Size(s)
    ensures forall i :: 0 <= i < |r| ==> r[i] == buf[At(s, i)]
  {
    seq(Size(s), i requires 0 <= i < Size(s) => buf[At(s, i)])
  }

  /** A sequence read back to front. */
  function Reversed<T>(xs: seq<T>): (r: seq<T>)
    ensures |r| == |xs|
    ensures forall i :: 0 <= i < |xs| ==> r[i] == xs[|xs| - 1 - i]
  {
    seq(|xs|, i requires 0 <= i < |xs| => xs[|xs| - 1 - i])
  }

  /** Reading one more value extends a prefix of the back-to-front contents by the
      element k places from the end. */
  lemma ReversedPrefixStep<T>(buf: seq<T>, s: Slice, prefix: seq<T>)
    requires s.Valid() && Fits(s, |buf|) && |prefix| < Size(s)
    requires prefix == Reversed(Elements(buf, s))[..|prefix|]
    ensures prefix + [buf[At(s, Size(s) - 1 - |prefix|)]] == Reversed(Elements(buf, s))[..|prefix| + 1]
  {
    var xs := Reversed(Elements(buf, s));
    assert xs[..|prefix| + 1] == xs[..|prefix|] + [xs[|prefix|]];
  }

  /** Element addresses are affine in the index, so a non-empty view fits a buffer
      as soon as its first and last elements do. */
  lemma FitsFromEndpoints(s: Slice, len: nat)
    requires s.Valid() && Size(s) >= 1
    requires 0 <= At(s, 0) < len && 0 <= At(s, Size(s) - 1) < len
    ensures Fits(s, len)
  {
    var last := Size(s) - 1;
    forall i | 0 <= i < Size(s)
      ensures 0 <= At(s, i) < len
    {
      if Stride(s) >= 0 {
        MulMonotone(0, i, Stride(s));
        MulMonotone(i, last, Stride(s));
        assert Stride(s) * i <= Stride(s) * last;
      } else {
        MulMonotone(0, i, -Stride(s));
        MulMonotone(i, last, -Stride(s));
        assert Stride(s) * i >= Stride(s) * last;
      }
    }
  }

  /** `First(n)` shows the first n values of s. */
  lemma FirstElements<T>(buf: seq<T>, s: Slice, count: nat)
    requires s.Valid() && Fits(s, |buf|) && count <= Size(s)
    ensures Fits(First(s, count), |buf|)
    ensures Elements(buf, First(s, count)) == Elements(buf, s)[..count]
  {
  }

  /** `Last(n)` shows the last n values of s. */
  lemma LastElements<T>(buf: seq<T>, s: Slice, count: nat)
    requires s.Valid() && Fits(s, |buf|) && count <= Size(s)
    ensures Fits(Last(s, count), |buf|)
    ensures Elements(buf, Last(s, count)) == Elements(buf, s)[Size(s) - count..]
  {
  }

  /** `DropFirst(n)` shows all values of s but the first n. */
  lemma DropFirstElements<T>(buf: seq<T>, s: Slice, count: nat)
    requires s.Valid() && Fits(s, |buf|) && count <= Size(s)
    ensures Fits(DropFirst(s, count), |buf|)
    ensures Elements(buf, DropFirst(s, count)) == Elements(buf, s)[count..]
  {
  }

  /** `DropLast(n)` shows all values of s but the last n. */
  lemma DropLastElements<T>(buf: seq<T>, s: Slice, count: nat)
    requires s.Valid() && Fits(s, |buf|) && count <= Size(s)
    ensures Fits(DropLast(s, count), |buf|)
    ensures Elements(buf, DropLast(s, count)) == Elements(buf, s)[..Size(s) - count]
  {
  }

  /** `Skip(k)` shows exactly the values of s at indices 0, k, 2k, ... */
  lemma SkipElements<T>(buf: seq<T>, s: Slice, k: int)
    requires s.Valid() && Fits(s, |buf|) && k >= 1
    ensures Fits(Skip(s, k), |buf|)
    ensures |Elements(buf, Skip(s, k))| == CeilDiv(Size(s), k)
    ensures forall i :: 0 <= i < Size(Skip(s, k)) ==>
              i * k < Size(s) && Elements(buf, Skip(s, k))[i] == Elements(buf, s)[i * k]
  {
  }

  /** The scenario of the repository's commented-out demo: a buffer holding 0..99,
      viewed with static extent 15 and static stride 2, shows 0, 2, ..., 28; its
      `First<5>()` decimated by `Skip<2>()` shows 0, 4, 8 with stride 4. */
  lemma DemoScenario()
    ensures var buf := seq(100, i => i);
            var s := FromContainer(Shape(15, 2), 0, 100);
            var t := SkipStatic(FirstStatic(s, 5), 2);
            && Fits(s, 100) && Elements(buf, s) == seq(15, i => 2 * i)
            && Fits(t, 100) && Elements(buf, t) == [0, 4, 8] && Stride(t) == 4
  {
    var buf := seq(100, i => i);
    var s := FromContainer(Shape(15, 2), 0, 100);
    assert CeilDiv(100, 2) == 50;
    var f := FirstStatic(s, 5);
    var t := SkipStatic(f, 2);
    assert CeilDiv(5, 2) == 3;
    assert Size(t) == 3;
    assert Elements(buf, t) == [0, 4, 8];
  }
}

=== FILE: descriptor.dfy ===
/** The extent/stride descriptor of a slice (`SliceDynamicData` and `SliceBase`).

    Each of the two template arguments is either a compile-time constant or the
    "dynamic" sentinel; only the dynamic ones are stored at run time. The four
    storage shapes of `SliceDynamicData` are the four combinations of the two
    optional fields below. */
module SliceDescriptor {
  import opened Wrappers

  /** `std::dynamic_extent`: the largest `size_t`, meaning "extent known only at run time". */
  const DynamicExtent: nat := 0xFFFF_FFFF_FFFF_FFFF
  /** `dynamic_stride`: the template argument -1, meaning "stride known only at run time". */
  const DynamicStride: int := -1

  /** The template arguments `extent` and `stride` of a slice type. */
  datatype Shape = Shape(extent: nat, stride: int) {
    predicate HasDynamicExtent() { extent == DynamicExtent }
    predicate HasDynamicStride() { stride == DynamicStride }
  }

  /** A descriptor: its shape plus a runtime field for each dynamic parameter. */
  datatype Descriptor = Descriptor(shape: Shape, extentField: Option<nat>, strideField: Option<int>) {
    /** A field is stored exactly when its parameter is dynamic (static ones cost no
        storage), and a static extent is a `size_t` below the sentinel. */
    predicate Valid() {
      && shape.extent <= DynamicExtent
      && (extentField.Some? <==> shape.HasDynamicExtent())
      && (strideField.Some? <==> shape.HasDynamicStride())
    }
  }

  /** The `SliceDynamicData(extent, stride)` constructor: keeps each argument only
      when the matching parameter is dynamic. */
  function Make(shape: Shape, extent: nat, stride: int): (d: Descriptor)
    requires shape.extent <= DynamicExtent
    ensures d.Valid() && d.shape == shape
    ensures GetExtent(d) == if shape.HasDynamicExtent() then extent else shape.extent
    ensures GetStride(d) == if shape.HasDynamicStride() then stride else shape.stride
  {
    Descriptor(shape,
               if shape.HasDynamicExtent() then Some(extent) else None,
               if shape.HasDynamicStride() then Some(stride) else None)
  }

  /** `GetExtent`: the compile-time extent when static, the stored field otherwise. */
  function GetExtent(d: Descriptor): (r: nat)
    requires d.Valid()
    ensures !d.shape.HasDynamicExtent() ==> r == d.shape.extent
    ensures d.shape.HasDynamicExtent() ==> d.extentField == Some(r)
  {
    if d.shape.HasDynamicExtent() then d.extentField.value else d.shape.extent
  }

  /** `GetStride`: the compile-time stride when static, the stored field otherwise. */
  function GetStride(d: Descriptor): (r: int)
    requires d.Valid()
    ensures !d.shape.HasDynamicStride() ==> r == d.shape.stride
    ensures d.shape.HasDynamicStride() ==> d.strideField == Some(r)
  {
    if d.shape.HasDynamicStride() then d.strideField.value else d.shape.stride
  }

  /** `SetExtent`: only available when the extent is dynamic; overwrites it and
      nothing else. */
  function SetExtent(d: Descriptor, extent: nat): (r: Descriptor)
    requires d.Valid() && d.shape.HasDynamicExtent()
    ensures r.Valid() && r.shape == d.shape
    ensures GetExtent(r) == extent && GetStride(r) == GetStride(d)
  {
    d.(extentField := Some(extent))
  }

  /** `SetStride`: only available when the stride is dynamic; overwrites it and
      nothing else. */
  function SetStride(d: Descriptor, stride: int): (r: Descriptor)
    requires d.Valid() && d.shape.HasDynamicStride()
    ensures r.Valid() && r.shape == d.shape
    ensures GetStride(r) == stride && GetExtent(r) == GetExtent(d)
  {
    d.(strideField := Some(stride))
  }

  /** `SetExtentIfDynamic`: overwrites a dynamic extent; a static one leaves the
      descriptor exactly as it was. */
  function SetExtentIfDynamic(d: Descriptor, extent: nat): (r: Descriptor)
    requires d.Valid()
    ensures r.Valid() && r.shape == d.shape
    ensures GetStride(r) == GetStride(d)
    ensures d.shape.HasDynamicExtent() ==> GetExtent(r) == extent
    ensures !d.shape.HasDynamicExtent() ==> r == d
  {
    if d.shape.HasDynamicExtent() then SetExtent(d, extent) else d
  }

  /** `SetStrideIfDynamic`: overwrites a dynamic stride; a static one leaves the
      descriptor exactly as it was. */
  function SetStrideIfDynamic(d: Descriptor, stride: int): (r: Descriptor)
    requires d.Valid()
    ensures r.Valid() && r.shape == d.shape
    ensures GetExtent(r) == GetExtent(d)
    ensures d.shape.HasDynamicStride() ==> GetStride(r) == stride
    ensures !d.shape.HasDynamicStride() ==> r == d
  {
    if d.shape.HasDynamicStride() then SetStride(d, stride) else d
  }

  /** A valid descriptor is determined by its shape and its two accessors: there is
      no hidden state behind `GetExtent` and `GetStride`. */
  lemma AccessorsDetermineDescriptor(d1: Descriptor, d2: Descriptor)
    requires d1.Valid() && d2.Valid() && d1.shape == d2.shape
    ensures d1 == d2 <==> GetExtent(d1) == GetExtent(d2) && GetStride(d1) == GetStride(d2)
  {
  }

  /** Every valid descriptor is what the constructor builds from its own accessors. */
  lemma MakeFromAccessors(d: Descriptor)
    requires d.Valid()
    ensures Make(d.shape, GetExtent(d), GetStride(d)) == d
  {
  }
}

=== FILE: fixed_width.dfy ===
/** The C++ integer conversions the slice formulas go through: `size_t` (unsigned,
    64 bits, wraps modulo 2^64) and `int32_t` (the iterator's difference type). */
module FixedWidth {

  /** 2^64, the modulus of `size_t` arithmetic. */
  const SizeModulus: int := 0x1_0000_0000_0000_0000
  /** 2^32, the modulus of an `int32_t` conversion. */
  const Int32Modulus: int := 0x1_0000_0000
  const Int32Min: int := -0x8000_0000
  const Int32Max: int := 0x7FFF_FFFF

  /** Conversion of a mathematical integer to `size_t`: the value modulo 2^64. */
  function ToSize(x: int): (r: nat)
    ensures r < SizeModulus
    ensures x == r + (x / SizeModulus) * SizeModulus
  {
    x % SizeModulus
  }

  /** Conversion to `int32_t`: the representative of x modulo 2^32 in the signed range. */
  function ToInt32(x: int): (r: int)
    ensures Int32Min <= r <= Int32Max
    ensures x - r == ((x - r) / Int32Modulus) * Int32Modulus
  {
    var m := x % Int32Modulus;
    if m > Int32Max then m - Int32Modulus else m
  }

  /** Two integers that differ by a multiple of 2^32 convert to the same `int32_t`,
      and one already in the signed range converts to itself. */
  lemma {:induction false} ToInt32OfShifted(y: int, c: int)
    requires Int32Min <= y <= Int32Max
    ensures ToInt32(y + c * Int32Modulus) == y
  {
    var x := y + c * Int32Modulus;
    var r := ToInt32(x);
    var t := (x - r) / Int32Modulus;
    assert y - r == (t - c) * Int32Modulus;
  }

  /** The product of a `ptrdiff_t` and a `size_t`, computed in `size_t` and stored in
      an `int32_t`, is the mathematical product whenever that product fits in 32 bits;
      in particular a factor of `size_t(0) - 1` acts as -1. */
  lemma {:induction false} WrappedProduct(a: int, b: int)
    requires Int32Min <= a * b <= Int32Max
    ensures ToInt32(ToSize(ToSize(a) * ToSize(b))) == a * b
  {
    var A := ToSize(a);
    var B := ToSize(b);
    var p := a / SizeModulus;
    var q := b / SizeModulus;
    var X := ToSize(A * B);
    var t := (A * B) / SizeModulus;
    var m := A * q + p * B + p * q * SizeModulus;
    assert a * b == (A + p * SizeModulus) * (B + q * SizeModulus);
    assert a * b == A * B + m * SizeModulus;
    assert X == a * b - (t + m) * SizeModulus;
    var c := -(t + m) * Int32Modulus;
    assert (t + m) * SizeModulus == (t + m) * Int32Modulus * Int32Modulus;
    assert X == a * b + c * Int32Modulus;
    ToInt32OfShifted(a * b, c);
  }
}

=== FILE: iterator.dfy ===
/** `SliceIterator`: a cursor `(ptr, offset)` over a view, with the view's descriptor
    copied in. A forward cursor steps by +stride, a reverse one by -stride; `begin`,
    `end`, `rbegin` and `rend` are just particular offsets. */
module SliceIterators {
  import opened Arith
  import opened FixedWidth
  import opened SliceDescriptor
  import opened Slices
  import opened SliceContents

  datatype Iter = Iter(ptr: int, offset: int, reversed: bool, desc: Descriptor) {
    predicate Valid() { desc.Valid() }
  }

  /** The signed step of one increment: +stride forward, -stride reversed. */
  function Step(it: Iter): int
    requires it.Valid()
  {
    if it.reversed then -GetStride(it.desc) else GetStride(it.desc)
  }

  /** `operator*` / `operator->`: the address the cursor designates. A cursor over a
      view whose offset is i strides designates element i of that view. */
  function Deref(it: Iter): (r: int)
    ensures forall s: Slice, i: nat :: s.Valid() && it.ptr == s.data && it.offset == Stride(s) * i ==> r == At(s, i)
  {
    it.ptr + it.offset
  }

  /** Pre-increment `++it`: one step in the iteration direction. */
  function Next(it: Iter): (r: Iter)
    requires it.Valid()
    ensures r.Valid() && r.ptr == it.ptr && r.desc == it.desc && r.reversed == it.reversed
    ensures Deref(r) - Deref(it) == (if it.reversed then -1 else 1) * GetStride(it.desc)
  {
    it.(offset := it.offset + Step(it))
  }

  /** Pre-decrement `--it`: one step against the iteration direction. */
  function Prev(it: Iter): (r: Iter)
    requires it.Valid()
    ensures r.Valid() && Next(r) == it
  {
    it.(offset := it.offset - Step(it))
  }

  /** Post-increment `it++`: the cursor as it was, and the cursor moved one step. */
  function PostNext(it: Iter): (r: (Iter, Iter))
    requires it.Valid()
    ensures r.0 == it && r.1.Valid() && Prev(r.1) == it
  {
    (it, Next(it))
  }

  /** Post-decrement `it--`: the cursor as it was, and the cursor moved one step back. */
  function PostPrev(it: Iter): (r: (Iter, Iter))
    requires it.Valid()
    ensures r.0 == it && r.1.Valid() && Next(r.1) == it
  {
    (it, Prev(it))
  }

  /** `it += n`, and what `it + n` and `n + it` are meant to compute: n steps at once. */
  function Advance(it: Iter, n: int): (r: Iter)
    requires it.Valid()
    ensures r.Valid() && r.ptr == it.ptr && r.desc == it.desc && r.reversed == it.reversed
    ensures n == 0 ==> r == it
    ensures n == 1 ==> r == Next(it)
    ensures n == -1 ==> r == Prev(it)
  {
    it.(offset := it.offset + n * Step(it))
  }

  /** `it -= n`, and what `it - n` is meant to compute: n steps back at once. */
  function Retreat(it: Iter, n: int): (r: Iter)
    requires it.Valid()
    ensures r.Valid() && Advance(r, n) == it
  {
    it.(offset := it.offset - n * Step(it))
  }

  /** `it[n]`: the address n steps ahead, without moving the cursor. */
  function Subscript(it: Iter, n: int): (r: int)
    requires it.Valid()
    ensures r == Deref(Advance(it, n))
  {
    it.ptr + it.offset + n * Step(it)
  }

  /** `operator==`: cursors over the same view are equal when they designate the
      same address. */
  function IterEqual(a: Iter, b: Iter): (r: bool)
    ensures a.ptr == b.ptr ==> (r <==> Deref(a) == Deref(b))
  {
    a.offset == b.offset
  }

  /** `operator!=`: cursors over the same view differ when they designate different
      addresses. */
  function IterNotEqual(a: Iter, b: Iter): (r: bool)
    ensures a.ptr == b.ptr ==> (r <==> Deref(a) != Deref(b))
  {
    a.offset != b.offset
  }

  /** Two cursors over one view: same base, descriptor and direction, and a non-zero
      step (comparing cursors of different views is outside the contract). */
  predicate SameRange(a: Iter, b: Iter) {
    a.Valid() && a.ptr == b.ptr && a.desc == b.desc && a.reversed == b.reversed && Step(a) != 0
  }

  /** `a - b`, as the random-access iterator contract means it: the number of steps
      from b to a. */
  function Distance(a: Iter, b: Iter): (r: int)
    requires SameRange(a, b)
    ensures (a.offset - b.offset) % Step(a) == 0 ==> Advance(b, r) == a
  {
    (a.offset - b.offset) / Step(a)
  }

  /** `a < b` in iteration order: b lies ahead of a. `a > b`, `a <= b` and `a >= b`
      are `Before(b, a)`, `!Before(b, a)` and `!Before(a, b)`. */
  function Before(a: Iter, b: Iter): (r: bool)
    requires SameRange(a, b)
    ensures r ==> Step(a) * (b.offset - a.offset) > 0
    ensures (b.offset - a.offset) % Step(a) == 0 && Step(a) * (b.offset - a.offset) > 0 ==> r
  {
    QuotientSign(b.offset - a.offset, Step(a));
    Distance(b, a) > 0
  }

  /** The reference meaning of stepping: n increments one after another. */
  function NextN(it: Iter, n: nat): (r: Iter)
    requires it.Valid()
    ensures r.Valid() && r.ptr == it.ptr && r.desc == it.desc && r.reversed == it.reversed
  {
    if n == 0 then it else Next(NextN(it, n - 1))
  }

  /** The reference meaning of stepping back: n decrements one after another. */
  function PrevN(it: Iter, n: nat): (r: Iter)
    requires it.Valid()
    ensures r.Valid() && r.ptr == it.ptr && r.desc == it.desc && r.reversed == it.reversed
  {
    if n == 0 then it else Prev(PrevN(it, n - 1))
  }

  // -------------------------------------------------------------- range endpoints

  /** `begin()` / `cbegin()`: a forward cursor at element 0. */
  function Begin(s: Slice): (r: Iter)
    requires s.Valid()
    ensures r.Valid() && !r.reversed && r.ptr == s.data && r.desc == s.desc
    ensures Deref(r) == At(s, 0)
  {
    Iter(s.data, 0, false, s.desc)
  }

  /** `end()` / `cend()`: a forward cursor one past the last element. */
  function End(s: Slice): (r: Iter)
    requires s.Valid()
    ensures r.Valid() && !r.reversed && r.ptr == s.data && r.desc == s.desc
    ensures Deref(r) == At(s, Size(s))
    ensures Size(s) >= 1 ==> Deref(Prev(r)) == At(s, Size(s) - 1)
  {
    Iter(s.data, Stride(s) * Size(s), false, s.desc)
  }

  /** `rbegin()`: a reverse cursor at the last element. For an empty view the
      `size_t` subtraction wraps; `OffsetsFitFixedWidth` shows the stored offset is
      then -stride, which is what the integer expression below gives. */
  function RBegin(s: Slice): (r: Iter)
    requires s.Valid()
    ensures r.Valid() && r.reversed && r.ptr == s.data && r.desc == s.desc
    ensures Size(s) >= 1 ==> Deref(r) == At(s, Size(s) - 1)
    ensures Size(s) == 0 ==> r == REnd(s)
  {
    Iter(s.data, Stride(s) * (Size(s) - 1), true, s.desc)
  }

  /** `rend()`: a reverse cursor one step beyond element 0. */
  function REnd(s: Slice): (r: Iter)
    requires s.Valid()
    ensures r.Valid() && r.reversed && r.ptr == s.data && r.desc == s.desc
    ensures Deref(Prev(r)) == At(s, 0)
  {
    Iter(s.data, -Stride(s), true, s.desc)
  }

  // ---------------------------------------------------------------------- lemmas

  /** Increment and decrement undo each other. */
  lemma NextPrevInverse(it: Iter)
    requires it.Valid()
    ensures Prev(Next(it)) == it && Next(Prev(it)) == it
  {
  }

  /** `+= n` is n increments. */
  lemma {:induction false} AdvanceIsRepeatedNext(it: Iter, n: nat)
    requires it.Valid()
    ensures Advance(it, n) == NextN(it, n)
  {
    if n > 0 {
      AdvanceIsRepeatedNext(it, n - 1);
      assert (n - 1) * Step(it) + Step(it) == n * Step(it);
    }
  }

  /** `+= -n` is n decrements: a negative count steps against the iteration direction. */
  lemma {:induction false} AdvanceBackIsRepeatedPrev(it: Iter, n: nat)
    requires it.Valid()
    ensures Advance(it, -(n as int)) == PrevN(it, n)
  {
    if n > 0 {
      AdvanceBackIsRepeatedPrev(it, n - 1);
      assert -((n - 1) as int) * Step(it) - Step(it) == -(n as int) * Step(it);
    }
  }

  /** `it[n]` reads where n increments would land, and `it[-n]` where n decrements
      would, leaving the cursor where it is. */
  lemma SubscriptIsAdvancedDeref(it: Iter, n: nat)
    requires it.Valid()
    ensures Subscript(it, n) == Deref(NextN(it, n))
    ensures Subscript(it, -(n as int)) == Deref(PrevN(it, n))
  {
    AdvanceIsRepeatedNext(it, n);
    AdvanceBackIsRepeatedPrev(it, n);
  }

  /** The i-th forward cursor designates element i; E increments from `begin()`
      reach `end()` and none before it does when the stride is non-zero. */
  lemma ForwardPositions(s: Slice, i: nat)
    requires s.Valid() && i <= Size(s)
    ensures i < Size(s) ==> Deref(NextN(Begin(s), i)) == At(s, i)
    ensures NextN(Begin(s), Size(s)) == End(s)
    ensures Stride(s) != 0 && i < Size(s) ==> IterNotEqual(NextN(Begin(s), i), End(s))
  {
    AdvanceIsRepeatedNext(Begin(s), i);
    AdvanceIsRepeatedNext(Begin(s), Size(s));
    assert i * Stride(s) == Stride(s) * i;
    if Stride(s) != 0 && i < Size(s) && Stride(s) * i == Stride(s) * Size(s) {
      MulCancel(Stride(s), i, Size(s));
    }
  }

  /** The i-th reverse cursor designates element E - 1 - i; E increments from
      `rbegin()` reach `rend()` and none before it does when the stride is non-zero. */
  lemma ReversePositions(s: Slice, i: nat)
    requires s.Valid() && i <= Size(s)
    ensures i < Size(s) ==> Deref(NextN(RBegin(s), i)) == At(s, Size(s) - 1 - i)
    ensures NextN(RBegin(s), Size(s)) == REnd(s)
    ensures Stride(s) != 0 && i < Size(s) ==> IterNotEqual(NextN(RBegin(s), i), REnd(s))
  {
    AdvanceIsRepeatedNext(RBegin(s), i);
    AdvanceIsRepeatedNext(RBegin(s), Size(s));
    ReverseOffset(Stride(s), Size(s), i);
    ReverseOffset(Stride(s), Size(s), Size(s));
  }

  /** The offset i steps after `rbegin()`; it is `rend()`'s only when i = E. */
  lemma ReverseOffset(stride: int, extent: nat, i: nat)
    requires i <= extent
    ensures stride * (extent - 1) + i * -stride == stride * (extent - 1 - i)
    ensures i < extent ==> extent - 1 - i >= 0
    ensures stride != 0 && i < extent ==> stride * (extent - 1 - i) != -stride
    ensures i == extent ==> stride * (extent - 1 - i) == -stride
  {
    if stride != 0 && i < extent && stride * (extent - 1 - i) == -stride {
      assert stride * (extent - 1 - i) == stride * -1;
      MulCancel(stride, extent - 1 - i, -1);
    }
  }

  /** An empty view yields empty ranges in both directions. */
  lemma EmptyRanges(s: Slice)
    requires s.Valid() && Size(s) == 0
    ensures IterEqual(Begin(s), End(s)) && IterEqual(RBegin(s), REnd(s))
  {
  }

  /** The C++ offsets are computed in `size_t` and stored in an `int32_t`; whenever
      the true value fits in 32 bits they equal the integer offsets above — for
      `rbegin()` of an empty view too, where `extent - 1` wraps to 2^64 - 1. */
  lemma {:induction false} OffsetsFitFixedWidth(s: Slice)
    requires s.Valid() && Size(s) < SizeModulus
    requires Int32Min <= Stride(s) * Size(s) <= Int32Max
    requires Int32Min <= Stride(s) * (Size(s) - 1) <= Int32Max
    ensures ToInt32(ToSize(ToSize(Stride(s)) * ToSize(Size(s)))) == End(s).offset
    ensures ToInt32(ToSize(ToSize(Stride(s)) * ToSize(Size(s) - 1))) == RBegin(s).offset
    ensures Size(s) == 0 ==> ToInt32(ToSize(ToSize(Stride(s)) * ToSize(Size(s) - 1))) == REnd(s).offset
  {
    WrappedProduct(Stride(s), Size(s));
    WrappedProduct(Stride(s), Size(s) - 1);
  }

  /** The step count between a cursor and the cursor n steps on is n. */
  lemma DistanceOfAdvance(it: Iter, n: int)
    requires it.Valid() && Step(it) != 0
    ensures SameRange(Advance(it, n), it)
    ensures Distance(Advance(it, n), it) == n
  {
    assert Advance(it, n).offset - it.offset == n * Step(it);
    DivOfMultiple(n, Step(it));
  }

  /** A cursor comes before the one n steps on exactly when n is positive. */
  lemma BeforeIffAhead(it: Iter, n: int)
    requires it.Valid() && Step(it) != 0
    ensures SameRange(it, Advance(it, n))
    ensures Before(it, Advance(it, n)) <==> n > 0
  {
    assert Advance(it, n).offset - it.offset == n * Step(it);
    DivOfMultiple(n, Step(it));
  }

  /** Both ranges are E steps long. */
  lemma RangeLengths(s: Slice)
    requires s.Valid() && Stride(s) != 0
    ensures SameRange(End(s), Begin(s)) && Distance(End(s), Begin(s)) == Size(s)
    ensures SameRange(REnd(s), RBegin(s)) && Distance(REnd(s), RBegin(s)) == Size(s)
  {
    ForwardPositions(s, 0);
    ReversePositions(s, 0);
    AdvanceIsRepeatedNext(Begin(s), Size(s));
    AdvanceIsRepeatedNext(RBegin(s), Size(s));
    DistanceOfAdvance(Begin(s), Size(s));
    DistanceOfAdvance(RBegin(s), Size(s));
  }

  // ------------------------------------------------------------------- traversal

  /** A range-based `for` over `begin()`..`end()`: visits s[0], ..., s[E-1] in order,
      one value per step, and stops at `end()`. */
  method ForwardTraversal<T>(buf: seq<T>, s: Slice) returns (values: seq<T>)
    requires s.Valid() && Stride(s) != 0 && Fits(s, |buf|)
    ensures values == Elements(buf, s)
  {
    var it := Begin(s);
    var last := End(s);
    values := [];
    while IterNotEqual(it, last)
      invariant it == NextN(Begin(s), |values|)
      invariant |values| <= Size(s)
      invariant values == Elements(buf, s)[..|values|]
      decreases Size(s) - |values|
    {
      ForwardPositions(s, |values|);
      values := values + [buf[Deref(it)]];
      it := Next(it);
    }
    ForwardPositions(s, |values|);
  }

  /** A range-based `for` over `rbegin()`..`rend()`: visits s[E-1], ..., s[0], one
      value per step, and stops at `rend()`. */
  method ReverseTraversal<T>(buf: seq<T>, s: Slice) returns (values: seq<T>)
    requires s.Valid() && Stride(s) != 0 && Fits(s, |buf|)
    ensures values == Reversed(Elements(buf, s))
  {
    var it := RBegin(s);
    var last := REnd(s);
    values := [];
    while IterNotEqual(it, last)
      invariant it == NextN(RBegin(s), |values|)
      invariant |values| <= Size(s)
      invariant values == Reversed(Elements(buf, s))[..|values|]
      decreases Size(s) - |values|
    {
      ReverseStep(buf, s, it, values);
      values := values + [buf[Deref(it)]];
      it := Next(it);
    }
    ReversePositions(s, |values|);
  }

  /** One round of the reverse loop: a cursor short of `rend()` designates a value
      of the buffer, and reading it extends the collected prefix by one. */
  lemma ReverseStep<T>(buf: seq<T>, s: Slice, it: Iter, values: seq<T>)
    requires s.Valid() && Stride(s) != 0 && Fits(s, |buf|)
    requires |values| <= Size(s) && it == NextN(RBegin(s), |values|)
    requires values == Reversed(Elements(buf, s))[..|values|]
    requires IterNotEqual(it, REnd(s))
    ensures |values| < Size(s) && 0 <= Deref(it) < |buf|
    ensures values + [buf[Deref(it)]] == Reversed(Elements(buf, s))[..|values| + 1]
  {
    ReversePositions(s, |values|);
    ReversedPrefixStep(buf, s, values);
  }

  /** Reverse traversal of a view of 10, 20, 30, 40 with stride 1 shows 40, 30, 20, 10. */
  lemma ReverseScenario()
    ensures var s := FromContainer(Shape(DynamicExtent, 1), 0, 4);
            Fits(s, 4) && Reversed(Elements([10, 20, 30, 40], s)) == [40, 30, 20, 10]
  {
    var s := FromContainer(Shape(DynamicExtent, 1), 0, 4);
    assert CeilDiv(4, 1) == 4;
    assert Size(s) == 4;
  }
}

=== FILE: slice.dfy ===
/** The `Slice` view: a base address plus an extent/stride descriptor.

    Addresses are integers; element `i` of a view lives at `data + stride * i`.
    Every sub-view operation builds a fresh view and never changes its source. */
module Slices {
  import opened Wrappers
  import opened Arith
  import opened SliceDescriptor

  datatype Slice = Slice(data: int, desc: Descriptor) {
    predicate Valid() { desc.Valid() }
  }

  /** `Size()`: the number of elements; a static extent needs no stored field. */
  function Size(s: Slice): (r: nat)
    requires s.Valid()
    ensures !s.desc.shape.HasDynamicExtent() ==> r == s.desc.shape.extent
    ensures s.desc.shape.HasDynamicExtent() ==> s.desc.extentField == Some(r)
  {
    GetExtent(s.desc)
  }

  /** `Stride()`: the step between consecutive elements, in elements; a static
      stride needs no stored field. */
  function Stride(s: Slice): (r: int)
    requires s.Valid()
    ensures !s.desc.shape.HasDynamicStride() ==> r == s.desc.shape.stride
    ensures s.desc.shape.HasDynamicStride() ==> s.desc.strideField == Some(r)
  {
    GetStride(s.desc)
  }

  /** `operator[]`: the address of element `idx` (no bounds check). Element 0 is at
      the base, and with a non-zero stride the address determines the index. */
  function At(s: Slice, idx: nat): (r: int)
    requires s.Valid()
    ensures idx == 0 ==> r == s.data
    ensures Stride(s) != 0 ==> (r - s.data) / Stride(s) == idx
  {
    assert Stride(s) != 0 ==> (idx * Stride(s)) / Stride(s) == idx by {
      if Stride(s) != 0 { DivOfMultiple(idx, Stride(s)); }
    }
    s.data + Stride(s) * idx
  }

  /** Element 0 is at the base and consecutive elements are one stride apart. */
  lemma {:induction false} IndexingIsAffine(s: Slice, i: nat, j: nat)
    requires s.Valid()
    ensures At(s, 0) == s.data
    ensures At(s, i + 1) == At(s, i) + Stride(s)
    ensures At(s, i + j) == At(s, i) + Stride(s) * j
  {
    assert Stride(s) * (i + j) == Stride(s) * i + Stride(s) * j;
  }

  /** What a view looks like from outside: base address, extent and stride. */
  function Observe(s: Slice): (int, nat, int)
    requires s.Valid()
  {
    (s.data, Size(s), Stride(s))
  }

  /** The default constructor `Slice()`: its dynamic fields are unspecified, and every
      builder chain below overwrites each of them before the view is returned. */
  function Blank(shape: Shape): (d: Descriptor)
    requires shape.extent <= DynamicExtent
    ensures d.Valid() && d.shape == shape
    ensures !shape.HasDynamicExtent() ==> GetExtent(d) == shape.extent
    ensures !shape.HasDynamicStride() ==> GetStride(d) == shape.stride
  {
    Make(shape, 0, 0)
  }

  /** `operator==` between two views of the same type: equal views have the same
      elements at the same addresses. */
  function Equal(a: Slice, b: Slice): (r: bool)
    requires a.Valid() && b.Valid() && a.desc.shape == b.desc.shape
    ensures r <==> Observe(a) == Observe(b)
    ensures r ==> Size(a) == Size(b) && forall i: nat :: At(a, i) == At(b, i)
  {
    Size(a) == Size(b) && Stride(a) == Stride(b) && a.data == b.data
  }

  /** `operator!=`: two views of one type differ exactly when they are different values. */
  function NotEqual(a: Slice, b: Slice): (r: bool)
    requires a.Valid() && b.Valid() && a.desc.shape == b.desc.shape
    ensures r <==> a != b
  {
    EqualIsIdentity(a, b);
    !Equal(a, b)
  }

  /** Comparing extent, stride and base is exactly value identity of two views of
      one type: the descriptor holds nothing else. */
  lemma EqualIsIdentity(a: Slice, b: Slice)
    requires a.Valid() && b.Valid() && a.desc.shape == b.desc.shape
    ensures Equal(a, b) <==> a == b
  {
    AccessorsDetermineDescriptor(a.desc, b.desc);
  }

  // ---------------------------------------------------------------- construction

  /** The container constructor (static stride only): base at the container's data,
      extent `ceil(size / stride)`, or the static extent, which must fit. */
  function FromContainer(shape: Shape, address: int, size: nat): (r: Slice)
    requires !shape.HasDynamicStride() && shape.stride >= 1
    requires shape.extent <= DynamicExtent
    requires shape.HasDynamicExtent() || shape.extent <= CeilDiv(size, shape.stride)
    ensures r.Valid() && r.desc.shape == shape
    ensures r.data == address && Stride(r) == shape.stride
    ensures forall i :: 0 <= i < Size(r) ==> address <= At(r, i) < address + size
    ensures shape.HasDynamicExtent() ==>
              forall j :: 0 <= j < size && j % shape.stride == 0 ==>
                j / shape.stride < Size(r) && At(r, j / shape.stride) == address + j
  {
    var k := shape.stride;
    var r := Slice(address, Make(shape, CeilDiv(size, k), k));
    assert Size(r) <= CeilDiv(size, k);
    StepsStayBelow(Size(r), size, k);
    StepsReachAll(size, k);
    r
  }

  /** Every one of the first `count` multiples of k lies below `size`. */
  lemma StepsStayBelow(count: nat, size: nat, k: int)
    requires k >= 1 && count <= CeilDiv(size, k)
    ensures forall i :: 0 <= i < count ==> 0 <= k * i < size
  {
    forall i | 0 <= i < count
      ensures 0 <= k * i < size
    {
      MulMonotone(i, CeilDiv(size, k) - 1, k);
    }
  }

  /** Every multiple of k below `size` is one of the first `ceil(size / k)`. */
  lemma StepsReachAll(size: nat, k: int)
    requires k >= 1
    ensures forall j :: 0 <= j < size && j % k == 0 ==> j / k < CeilDiv(size, k) && k * (j / k) == j
  {
    forall j | 0 <= j < size && j % k == 0
      ensures j / k < CeilDiv(size, k) && k * (j / k) == j
    {
      if j / k >= CeilDiv(size, k) {
        MulMonotone(CeilDiv(size, k), j / k, k);
      }
    }
  }

  /** The {iterator, count, skip} constructor (static stride only): base at the
      iterator's address, extent `count` unless it is static; `skip` is ignored. */
  function FromIterator(shape: Shape, address: int, count: nat, skip: int): (r: Slice)
    requires !shape.HasDynamicStride() && shape.extent <= DynamicExtent
    ensures r.Valid() && r.desc.shape == shape
    ensures Observe(r) == (address, if shape.HasDynamicExtent() then count else shape.extent, shape.stride)
  {
    Slice(address, Make(shape, count, shape.stride))
  }

  /** The `skip` argument of the {iterator, count, skip} constructor has no effect. */
  lemma FromIteratorIgnoresSkip(shape: Shape, address: int, count: nat, skip1: int, skip2: int)
    requires !shape.HasDynamicStride() && shape.extent <= DynamicExtent
    ensures FromIterator(shape, address, count, skip1) == FromIterator(shape, address, count, skip2)
  {
  }

  /** Whether a view of shape `from` converts to one of shape `to`: each target
      parameter is dynamic or equal to the source's. */
  predicate Convertible(from: Shape, to: Shape) {
    && (to.HasDynamicExtent() || to.extent == from.extent)
    && (to.HasDynamicStride() || to.stride == from.stride)
  }

  /** Conversion between shapes is reflexive and composes: a conversion through an
      intermediate shape is also allowed directly. Every shape converts to the fully
      dynamic one. */
  lemma ConvertibleIsPreorder(a: Shape, b: Shape, c: Shape)
    ensures Convertible(a, a)
    ensures Convertible(a, b) && Convertible(b, c) ==> Convertible(a, c)
    ensures Convertible(a, Shape(DynamicExtent, DynamicStride))
  {
  }

  /** The converting constructor: copies the base and propagates extent and stride
      through the "if dynamic" setters. */
  function Convert(shape: Shape, other: Slice): (r: Slice)
    requires other.Valid() && shape.extent <= DynamicExtent
    requires Convertible(other.desc.shape, shape)
    ensures r.Valid() && r.desc.shape == shape
    ensures Observe(r) == Observe(other)
  {
    Slice(other.data, SetStrideIfDynamic(SetExtentIfDynamic(Blank(shape), Size(other)), Stride(other)))
  }

  // ------------------------------------------------------- sub-views (runtime argument)

  /** `First(count)`: the first `count` elements. */
  function First(s: Slice, count: nat): (r: Slice)
    requires s.Valid() && count <= Size(s)
    ensures r.Valid() && r.desc.shape == Shape(DynamicExtent, s.desc.shape.stride)
    ensures Size(r) == count && Stride(r) == Stride(s) && r.data == s.data
    ensures forall i :: 0 <= i < count ==> At(r, i) == At(s, i)
  {
    var shape := Shape(DynamicExtent, s.desc.shape.stride);
    Slice(s.data, SetStrideIfDynamic(SetExtent(Blank(shape), count), Stride(s)))
  }

  /** `Last(count)`: the last `count` elements. */
  function Last(s: Slice, count: nat): (r: Slice)
    requires s.Valid() && count <= Size(s)
    ensures r.Valid() && r.desc.shape == Shape(DynamicExtent, s.desc.shape.stride)
    ensures Size(r) == count && Stride(r) == Stride(s)
    ensures At(r, 0) == At(s, Size(s) - count)
    ensures forall i :: 0 <= i < count ==> At(r, i) == At(s, Size(s) - count + i)
  {
    var shape := Shape(DynamicExtent, s.desc.shape.stride);
    var r := Slice(s.data + (Size(s) - count) * Stride(s),
                   SetStrideIfDynamic(SetExtent(Blank(shape), count), Stride(s)));
    ShiftedIndex(s, Size(s) - count);
    r
  }

  /** `DropFirst(count)`: all but the first `count` elements. */
  function DropFirst(s: Slice, count: nat): (r: Slice)
    requires s.Valid() && count <= Size(s)
    ensures r.Valid() && r.desc.shape == Shape(DynamicExtent, s.desc.shape.stride)
    ensures Size(r) == Size(s) - count && Stride(r) == Stride(s)
    ensures At(r, 0) == At(s, count)
    ensures forall i :: 0 <= i < Size(s) - count ==> At(r, i) == At(s, count + i)
  {
    var shape := Shape(DynamicExtent, s.desc.shape.stride);
    var r := Slice(s.data + count * Stride(s),
                   SetStrideIfDynamic(SetExtent(Blank(shape), Size(s) - count), Stride(s)));
    ShiftedIndex(s, count);
    r
  }

  /** `DropLast(count)`: all but the last `count` elements. */
  function DropLast(s: Slice, count: nat): (r: Slice)
    requires s.Valid() && count <= Size(s)
    ensures r.Valid() && r.desc.shape == Shape(DynamicExtent, s.desc.shape.stride)
    ensures Size(r) == Size(s) - count && Stride(r) == Stride(s) && r.data == s.data
    ensures forall i :: 0 <= i < Size(s) - count ==> At(r, i) == At(s, i)
  {
    var shape := Shape(DynamicExtent, s.desc.shape.stride);
    Slice(s.data, SetStrideIfDynamic(SetExtent(Blank(shape), Size(s) - count), Stride(s)))
  }

  /** `Skip(k)`: every k-th element, starting with the first. The extent is the
      ceiling of `Size(s) / k`, so an empty view stays empty. */
  function Skip(s: Slice, k: int): (r: Slice)
    requires s.Valid() && k >= 1
    ensures r.Valid() && r.desc.shape == Shape(DynamicExtent, DynamicStride)
    ensures Stride(r) == Stride(s) * k && r.data == s.data
    ensures forall i :: 0 <= i < Size(r) ==> i * k < Size(s) && At(r, i) == At(s, i * k)
    ensures forall j :: 0 <= j < Size(s) && j % k == 0 ==> j / k < Size(r)
  {
    var shape := Shape(DynamicExtent, DynamicStride);
    var r := Slice(s.data, SetStride(SetExtent(Blank(shape), CeilDiv(Size(s), k)), Stride(s) * k));
    DecimatedIndex(s, r, k);
    StepsReachAll(Size(s), k);
    r
  }

  /** Element `offset + i` of s is `offset * stride` past element i. */
  lemma ShiftedIndex(s: Slice, offset: nat)
    requires s.Valid()
    ensures forall i: nat :: At(s, offset + i) == s.data + offset * Stride(s) + Stride(s) * i
  {
    forall i: nat
      ensures At(s, offset + i) == s.data + offset * Stride(s) + Stride(s) * i
    {
      assert Stride(s) * (offset + i) == offset * Stride(s) + Stride(s) * i;
    }
  }

  /** The index arithmetic behind `Skip`. */
  lemma DecimatedIndex(s: Slice, r: Slice, k: int)
    requires s.Valid() && r.Valid() && k >= 1
    requires r.data == s.data && Stride(r) == Stride(s) * k && Size(r) == CeilDiv(Size(s), k)
    ensures forall i :: 0 <= i < Size(r) ==> i * k < Size(s) && At(r, i) == At(s, i * k)
  {
    StepsStayBelow(Size(r), Size(s), k);
    forall i | 0 <= i < Size(r)
      ensures i * k < Size(s) && At(r, i) == At(s, i * k)
    {
      assert 0 <= k * i < Size(s);
      assert i * k == k * i;
      DecimatedElement(s, r, k, i);
    }
  }

  /** Element i of a view with stride S * k is element i * k of the view with stride S. */
  lemma DecimatedElement(s: Slice, r: Slice, k: int, i: nat)
    requires s.Valid() && r.Valid() && k >= 1
    requires r.data == s.data && Stride(r) == Stride(s) * k
    ensures At(r, i) == At(s, i * k)
  {
    assert Stride(s) * k * i == Stride(s) * (i * k);
  }

  // ---------------------------------------------- sub-views (compile-time argument)

  /** `First<count>()`: the same view as `First(count)`, with a static extent. */
  function FirstStatic(s: Slice, count: nat): (r: Slice)
    requires s.Valid() && count <= Size(s) && count < DynamicExtent
    ensures r.Valid() && r.desc.shape == Shape(count, s.desc.shape.stride)
    ensures Observe(r) == Observe(First(s, count))
  {
    var shape := Shape(count, s.desc.shape.stride);
    Slice(s.data, SetStrideIfDynamic(Blank(shape), Stride(s)))
  }

  /** `Last<count>()`: the same view as `Last(count)`, with a static extent. */
  function LastStatic(s: Slice, count: nat): (r: Slice)
    requires s.Valid() && count <= Size(s) && count < DynamicExtent
    ensures r.Valid() && r.desc.shape == Shape(count, s.desc.shape.stride)
    ensures Observe(r) == Observe(Last(s, count))
  {
    var shape := Shape(count, s.desc.shape.stride);
    Slice(s.data + (Size(s) - count) * Stride(s), SetStrideIfDynamic(Blank(shape), Stride(s)))
  }

  /** `DropFirst<count>()`: the result type has extent E - count. On a static extent E
      that is a static extent; on a dynamic extent only `count` = 0 instantiates, where
      E - 0 is the dynamic sentinel again and the result is `DropFirst(0)`. Either way
      it is the same view as `DropFirst(count)`. */
  function DropFirstStatic(s: Slice, count: nat): (r: Slice)
    requires s.Valid() && count <= Size(s)
    requires s.desc.shape.HasDynamicExtent() ==> count == 0
    ensures r.Valid() && r.desc.shape == Shape(s.desc.shape.extent - count, s.desc.shape.stride)
    ensures Observe(r) == Observe(DropFirst(s, count))
    ensures s.desc.shape.HasDynamicExtent() ==> r == DropFirst(s, 0)
  {
    var shape := Shape(s.desc.shape.extent - count, s.desc.shape.stride);
    if s.desc.shape.HasDynamicExtent() then
      Slice(s.data + count * Stride(s),
            SetStrideIfDynamic(SetExtent(Blank(shape), Size(s) - count), Stride(s)))
    else
      Slice(s.data + count * Stride(s), SetStrideIfDynamic(Blank(shape), Stride(s)))
  }

  /** `DropLast<count>()`: static extent E - count when E is static, dynamic
      otherwise; the same view as `DropLast(count)` either way. */
  function DropLastStatic(s: Slice, count: nat): (r: Slice)
    requires s.Valid() && count <= Size(s)
    ensures r.Valid() && r.desc.shape.stride == s.desc.shape.stride
    ensures r.desc.shape.HasDynamicExtent() <==> s.desc.shape.HasDynamicExtent()
    ensures Observe(r) == Observe(DropLast(s, count))
  {
    if s.desc.shape.HasDynamicExtent() then
      var shape := Shape(DynamicExtent, s.desc.shape.stride);
      Slice(s.data, SetStrideIfDynamic(SetExtent(Blank(shape), Size(s) - count), Stride(s)))
    else
      var shape := Shape(s.desc.shape.extent - count, s.desc.shape.stride);
      Slice(s.data, SetStrideIfDynamic(Blank(shape), Stride(s)))
  }

  /** `Skip<k>()`: defined unless the extent is static and the stride dynamic. A
      static stride S becomes the static stride S * k, and a static extent E the
      static extent `ceil(E / k)`; the view is the same as `Skip(k)`. */
  function SkipStatic(s: Slice, k: int): (r: Slice)
    requires s.Valid() && k >= 1
    requires s.desc.shape.HasDynamicExtent() || !s.desc.shape.HasDynamicStride()
    ensures r.Valid()
    ensures r.desc.shape.HasDynamicExtent() <==> s.desc.shape.HasDynamicExtent()
    ensures r.desc.shape.HasDynamicStride() <==> s.desc.shape.HasDynamicStride()
    ensures Observe(r) == Observe(Skip(s, k))
  {
    var shape := s.desc.shape;
    if shape.HasDynamicStride() then
      var rs := Shape(DynamicExtent, DynamicStride);
      Slice(s.data, SetStride(SetExtent(Blank(rs), CeilDiv(Size(s), k)), Stride(s) * k))
    else
      ScaledStaticStride(shape.stride, k);
      if shape.HasDynamicExtent() then
        var rs := Shape(DynamicExtent, shape.stride * k);
        Slice(s.data, SetExtent(Blank(rs), CeilDiv(Size(s), k)))
      else
        var rs := Shape(CeilDiv(shape.extent, k), shape.stride * k);
        Slice(s.data, Blank(rs))
  }

  /** A static stride multiplied by a positive factor is never the dynamic sentinel,
      so `Skip<k>()` on a static stride keeps it static. */
  lemma ScaledStaticStride(stride: int, k: int)
    requires stride != DynamicStride && k >= 1
    ensures stride * k != DynamicStride
  {
    if stride <= -2 {
      MulMonotone(1, k, -stride);
    } else if stride >= 0 {
      MulMonotone(0, stride, k);
    }
  }

  // -------------------------------------------------------- relations between views

  /** Dropping the first n elements is taking the last E - n. */
  lemma DropFirstIsLast(s: Slice, count: nat)
    requires s.Valid() && count <= Size(s)
    ensures DropFirst(s, count) == Last(s, Size(s) - count)
  {
  }

  /** Dropping the last n elements is taking the first E - n. */
  lemma DropLastIsFirst(s: Slice, count: nat)
    requires s.Valid() && count <= Size(s)
    ensures DropLast(s, count) == First(s, Size(s) - count)
  {
  }

  /** Dropping nothing changes nothing: `First(n).DropFirst(0)` is `First(n)`, and
      `DropFirst(0).DropLast(0)` shows the same view (and is the same value when
      the extent is dynamic). */
  lemma DropNothing(s: Slice, count: nat)
    requires s.Valid() && count <= Size(s)
    ensures DropFirst(First(s, count), 0) == First(s, count)
    ensures Observe(DropLast(DropFirst(s, 0), 0)) == Observe(s)
    ensures s.desc.shape.HasDynamicExtent() ==> DropLast(DropFirst(s, 0), 0) == s
  {
    if s.desc.shape.HasDynamicExtent() {
      AccessorsDetermineDescriptor(DropLast(DropFirst(s, 0), 0).desc, s.desc);
    }
  }

  /** Chained decimation multiplies: `Skip(a).Skip(b)` is `Skip(a * b)`, with stride
      `S * a * b` and the original base. */
  lemma SkipSkip(s: Slice, a: int, b: int)
    requires s.Valid() && a >= 1 && b >= 1
    ensures a * b >= 1
    ensures Skip(Skip(s, a), b) == Skip(s, a * b)
    ensures Stride(Skip(Skip(s, a), b)) == Stride(s) * a * b
    ensures Skip(Skip(s, a), b).data == s.data
  {
    CeilDivCompose(Size(s), a, b);
    assert Stride(s) * a * b == Stride(s) * (a * b);
  }
}

=== FILE: wrappers.dfy ===
/** The optional value used for the runtime fields of a slice descriptor. */
module Wrappers {

  /** A value that may be absent: `None` stands for a field the type does not store. */
  datatype Option<+T> = None | Some(value: T)
}
